=== FILE: README.md ===
# Song preview and music-library sidebar, modelled in Dafny

This project models two parts of a rhythm game's music library.

**The song-preview controller (`BassPreviewContext`).** It plays a looping excerpt of the highlighted song. It does four things:
- fades out whatever is playing;
- debounces rapid selection changes with a 150 ms delay;
- loads the song off the interactive thread;
- seeks to the preview window, fades in, and loops the window until cancelled.

It keeps two cancellation sources, one for the load and one for the loop, plus a "loading" flag and a one-song pending slot.

The asynchronous methods are cut at each `await`. Each piece becomes a step (module `PreviewModel`):
- the fade-out (`ResumeAfterFadeOut`);
- the debounce (`ResumeAfterDebounce`);
- the load (`FinishLoad`, one "load finished" event);
- the loop's wait (`PollLoop`);
- the loop's fade-out (`ResumeLoopAfterFade`).

A step that stops at an `await` returns where the call is parked and which locals it holds. Overlapping calls are then sequences of steps on one session. The class `BassPreview.PreviewContext` has the source's fields. Each of its methods is proved to move the fields exactly as the matching step does.

A cancellation source is named by its creation index. Two suspended calls holding the same index hold the same source. `PreviewProperties` proves two things over any sequence of events, including events that resume any suspended call:
- at most one load source and one loop source are live at a time;
- cancellation is never undone.

It also proves the debounce, coalescing, stop and loop behaviour listed below.

**The sidebar (`Sidebar`).** Module `SidebarRules` holds the pure rules:
- which icon, name and part values each of the ten difficulty rings shows;
- how a song's length is written;
- which search text a filter key produces.

Module `SidebarPanel` holds the class. Its `Init` spawns the rings in two loops. Its `UpdateSidebar` applies the guard against redrawing the same view and sets ring visibility. Its `UpdateDifficulties` writes each ring in place. The length text is proved to read back, as a clock, to the song's whole seconds modulo one day. The search text is proved to split back into its key and value.

The controller disposes every cancellation source right after cancelling it. In .NET, `Cancel()` and `Token` throw `ObjectDisposedException` on a disposed source. The model therefore treats a cancelled source as a disposed one. Every `Cancel()` or `Token` on such a source throws (`:48`, `:70`, `:79`). Reading `IsCancellationRequested` (`:82`, `:97`, `:113`, `:148`, `:153`) does not throw.

Behaviour of the code a reader may not expect:
- **Requests during a load do not cancel it.** `BassPreviewContext.cs:69` cancels the load source only when it is *already* cancelled. A request during a live load is only recorded in the pending slot. The load finishes and its own song plays, and the recorded song stays pending (`InFlightRequestDoesNotCancelLoad`).
- **A request during a stopped load is dropped.** When the load's source was cancelled by a StopPreview from outside, the `Cancel()` at `:70` throws before the song is recorded. Nothing is replayed when the load returns (`StoppedLoadDropsRequest`).
- **A StopPreview from outside disables the controller.** It leaves a disposed source in the load-source field. Only a call that gets past the fade-out replaces that field, and every later PlayPreview throws at `:79` (or at `:70`) first. So no preview plays again, whatever happens in between (`StopDisablesLaterRequests`).
- **A loop whose fade-out returns after the loop was replaced logs an error.** The `Token` read at `:48` throws `ObjectDisposedException`, which the catch-all at `:55-57` logs (`NewLoopEndsOldLoop`).
- **Loads can overlap.** A request parked in its fade-out before another call set the loading flag goes on to start a second load while the first is in flight. The first load's return then clears the flag while the second still runs (`LoadsCanOverlap`).
- **The preview window can be empty or inverted.** Its end is not forced past its start when the song gives a positive end (`AuthoredWindowIsNotChecked`).
- **A load that throws leaves the loading flag set.** Until some load returns normally, every *new* request at most records its song. A call already past the loading check at `:68` can still start a load, and its normal return clears the flag (`LoadingFlagNeedsReturningLoad`).

## Model

| member | source | states |
|---|---|---|
| `PreviewModel.PreviewWindow` | Assets/Script/Audio/Bass/BassPreviewContext.cs:123-131 | start is the authored start if positive, else 10 (whatever the end); end is the authored end if positive, else start + duration; start is always positive; with both defaulted the window is (10, 10 + duration); a defaulted end exceeds the start whenever the duration is positive |
| `PreviewProperties.AuthoredWindowIsNotChecked` | Assets/Script/Audio/Bass/BassPreviewContext.cs:124-131 | an authored end at or before a positive authored start gives an empty or (when strictly before) inverted window |
| `PreviewModel.StopPreview` | Assets/Script/Audio/Bass/BassPreviewContext.cs:143-157 | unload is called exactly when audio is loaded; afterwards audio is not loaded and both present sources are cancelled; nothing else changes |
| `PreviewModel.PlayPreview` | Assets/Script/Audio/Bass/BassPreviewContext.cs:61-79 | an absent song, a near-zero volume or a cancelled (disposed) load-source field ends the call with nothing changed and no call made; otherwise, while loading, only the pending slot is written (last write wins); otherwise only a fade-out with the current load token is issued |
| `PreviewModel.ResumeAfterFadeOut` | Assets/Script/Audio/Bass/BassPreviewContext.cs:79-94 | a failed fade-out or a cancelled load-source field ends the call with no change; otherwise StopPreview runs first and a fresh source is installed and kept as the local copy; with the invariant, every earlier source is then cancelled and the new one is live |
| `PreviewModel.ResumeAfterDebounce` | Assets/Script/Audio/Bass/BassPreviewContext.cs:94-103 | a cancelled local source ends the call with no change; otherwise the loading flag is set and the load starts |
| `PreviewModel.FinishLoad` | Assets/Script/Audio/Bass/BassPreviewContext.cs:102-140 | a load that throws only logs the load call and leaves the flag set; a load that returns clears the flag, leaves the audio loaded with the returned length and never touches the load-source field; if the local source was cancelled, the pending song is replayed up to its fade-out (when the field is live) and the slot is cleared, with nothing else changed; otherwise the whole new state is given: the window, SetPosition(start), FadeIn in that order, and a new loop source with the old one cancelled |
| `PreviewModel.StartLooping` | Assets/Script/Audio/Bass/BassPreviewContext.cs:26-35 | the previous loop source is cancelled if it is live; a fresh loop source is installed and the loop starts waiting with it |
| `PreviewModel.PollLoop` | Assets/Script/Audio/Bass/BassPreviewContext.cs:38-46 | a cancelled local source ends the loop silently; at position >= end or >= length it fades out with the local token; otherwise it keeps waiting with no change |
| `PreviewModel.ResumeLoopAfterFade` | Assets/Script/Audio/Bass/BassPreviewContext.cs:46-58 | a cancellation exception ends the loop silently; any other exception, or a normal return after the local source was cancelled (its disposed Token throws), is logged once and ends it; otherwise only the position and the calls change: it seeks to the window start, fades in and waits again |
| `PreviewProperties.StopIsIdempotent` | Assets/Script/Audio/Bass/BassPreviewContext.cs:143-157 | a second StopPreview changes nothing: no second unload, no new cancellation |
| `PreviewProperties.StopOnFreshController` | Assets/Script/Audio/Bass/BassPreviewContext.cs:143-161 | stopping or disposing a controller that never played makes no call and changes nothing |
| `PreviewProperties.StopCancelsEverySource` | Assets/Script/Audio/Bass/BassPreviewContext.cs:148-156 | after StopPreview no source ever created is live |
| `PreviewProperties.FinishLoadKeepsValid` | Assets/Script/Audio/Bass/BassPreviewContext.cs:102-140 | finishing a load keeps at most one live load source and one live loop source |
| `PreviewProperties.StartLoopingKeepsValid` | Assets/Script/Audio/Bass/BassPreviewContext.cs:26-35 | starting a loop keeps at most one live loop source |
| `PreviewProperties.ResumeKeepsValid` | Assets/Script/Audio/Bass/BassPreviewContext.cs:26-140 | resuming any suspended call keeps the invariant |
| `PreviewProperties.ApplyKeepsValid` | Assets/Script/Audio/Bass/BassPreviewContext.cs:26-161 | every event keeps at most one live load source and one live loop source |
| `PreviewProperties.ApplyOnlyAddsCancellations` | Assets/Script/Audio/Bass/BassPreviewContext.cs:26-161 | no event removes a cancellation or forgets a created source |
| `PreviewProperties.RunKeepsValid` | Assets/Script/Audio/Bass/BassPreviewContext.cs:26-161 | under any interleaving, never two live load sources or two live loop sources |
| `PreviewProperties.RunKeepsCancellations` | Assets/Script/Audio/Bass/BassPreviewContext.cs:26-161 | under any interleaving, a cancelled source stays cancelled |
| `PreviewProperties.SupersededCallNeverLoads` | Assets/Script/Audio/Bass/BassPreviewContext.cs:86-99 | a call whose load source was replaced returns after its delay without loading, whatever happens in between |
| `PreviewProperties.LoadingFlagNeedsReturningLoad` | Assets/Script/Audio/Bass/BassPreviewContext.cs:102-110 | once set, the loading flag stays set until some load returns normally |
| `PreviewProperties.FirstPreviewPlays` | Assets/Script/Audio/Bass/BassPreviewContext.cs:61-140 | from a fresh controller the calls are FadeOut(default), the load, SetPosition(start), FadeIn, in that order; the loop runs on the second source |
| `PreviewProperties.DebounceKeepsOnlyLaterRequest` | Assets/Script/Audio/Bass/BassPreviewContext.cs:86-103 | of two requests inside the delay, the earlier returns without loading and only the later starts a load |
| `PreviewProperties.InFlightRequestDoesNotCancelLoad` | Assets/Script/Audio/Bass/BassPreviewContext.cs:67-76 | a request during a live load is only recorded; the load is not cancelled, its own song plays and the request stays pending |
| `PreviewProperties.CancelledLoadReplaysPending` | Assets/Script/Audio/Bass/BassPreviewContext.cs:112-121 | when a load whose own source was cancelled returns while the field holds a live source, the pending song is replayed up to its fade-out and the slot is cleared; window untouched |
| `PreviewProperties.StoppedLoadDropsRequest` | Assets/Script/Audio/Bass/BassPreviewContext.cs:68-76 | while a load whose source is the cancelled field runs, a request changes nothing; when the load returns nothing is replayed and only the flag, the slot and the audio change |
| `PreviewProperties.CancelledLoadFieldStays` | Assets/Script/Audio/Bass/BassPreviewContext.cs:79-91 | no event replaces or revives a cancelled load-source field |
| `PreviewProperties.CancelledFieldPersists` | Assets/Script/Audio/Bass/BassPreviewContext.cs:79-91 | over any run, a cancelled load-source field stays in place and cancelled |
| `PreviewProperties.StopDisablesLaterRequests` | Assets/Script/Audio/Bass/BassPreviewContext.cs:68-79 | after a StopPreview with a load source present, every later PlayPreview, after any run, changes nothing |
| `PreviewProperties.LoadsCanOverlap` | Assets/Script/Audio/Bass/BassPreviewContext.cs:79-110 | a second load can start while the first is in flight; the first's return clears the flag while the second still runs under a live source |
| `PreviewProperties.LoopCycle` | Assets/Script/Audio/Bass/BassPreviewContext.cs:38-52 | at the loop point the loop fades out, then seeks to start and fades in, and waits again; inside the audio the next poll waits |
| `PreviewProperties.NewLoopEndsOldLoop` | Assets/Script/Audio/Bass/BassPreviewContext.cs:27-31 | starting a new loop makes the previous loop's next step end it: silently while waiting, with one logged error after a fade-out that returns normally |
| `BassPreview.PreviewContext.constructor` | Assets/Script/Audio/Bass/BassPreviewContext.cs:22-24 | a new context is idle, holds no source and satisfies the invariant |
| `BassPreview.PreviewContext.Cancel` | Assets/Script/Audio/Bass/BassPreviewContext.cs:149-150 | cancelling a source adds it to the cancelled ones and changes nothing else |
| `BassPreview.PreviewContext.NewSource` | Assets/Script/Audio/Bass/BassPreviewContext.cs:90 | a new source gets the next index and changes nothing else |
| `BassPreview.PreviewContext.StopPreview` | Assets/Script/Audio/Bass/BassPreviewContext.cs:143-157 | the fields change exactly as `PreviewModel.StopPreview` |
| `BassPreview.PreviewContext.Dispose` | Assets/Script/Audio/Bass/BassPreviewContext.cs:159-161 | the same change as StopPreview |
| `BassPreview.PreviewContext.PlayPreview` | Assets/Script/Audio/Bass/BassPreviewContext.cs:61-79 | the fields and the returned suspension are those of `PreviewModel.PlayPreview` |
| `BassPreview.PreviewContext.ResumeAfterFadeOut` | Assets/Script/Audio/Bass/BassPreviewContext.cs:79-94 | as `PreviewModel.ResumeAfterFadeOut` |
| `BassPreview.PreviewContext.ResumeAfterDebounce` | Assets/Script/Audio/Bass/BassPreviewContext.cs:94-103 | as `PreviewModel.ResumeAfterDebounce` |
| `BassPreview.PreviewContext.FinishLoad` | Assets/Script/Audio/Bass/BassPreviewContext.cs:102-140 | as `PreviewModel.FinishLoad`, computing the window field by field |
| `BassPreview.PreviewContext.StartLooping` | Assets/Script/Audio/Bass/BassPreviewContext.cs:26-35 | as `PreviewModel.StartLooping` |
| `BassPreview.PreviewContext.PollLoop` | Assets/Script/Audio/Bass/BassPreviewContext.cs:38-46 | as `PreviewModel.PollLoop` |
| `BassPreview.PreviewContext.ResumeLoopAfterFade` | Assets/Script/Audio/Bass/BassPreviewContext.cs:46-58 | as `PreviewModel.ResumeLoopAfterFade` |
| `BassPreview.PreviewContext.AdvancePlayback` | Assets/Script/Audio/Bass/BassPreviewContext.cs:39-41 | the manager's position, which the loop polls, moves; nothing else changes |
| `BassPreview.DebouncedRequests` | Assets/Script/Audio/Bass/BassPreviewContext.cs:86-103 | on one fresh context, the first of two requests inside the delay returns without loading and the second reaches the load |
| `SidebarRules.DrumsRing` | Assets/Script/Menu/MusicLibrary/Sidebar.cs:179-187 | the whole ring: ghDrums/FiveLaneDrums with the five-lane values exactly when the drum type is five-lane, else drums/FourLaneDrums with the four-lane values |
| `SidebarRules.VocalsIcon` | Assets/Script/Menu/MusicLibrary/Sidebar.cs:194-199 | twoVocals exactly for 2 parts, harmVocals exactly for 3 or more, vocals exactly below 2 |
| `SidebarRules.VocalsRing` | Assets/Script/Menu/MusicLibrary/Sidebar.cs:191-207 | named Harmony exactly when harmony is present, with the count's icon and harmony values; otherwise vocals/Vocals with the vocals values |
| `SidebarRules.ProFallback` | Assets/Script/Menu/MusicLibrary/Sidebar.cs:212-214 | the 17-fret values unless their intensity is -1, and then exactly the 22-fret values; the result is -1 only when both variants are -1 |
| `SidebarRules.ProOrAlternativeRing` | Assets/Script/Menu/MusicLibrary/Sidebar.cs:209-233 | the pro ring exactly when either fret variant exists, with the fallback values; otherwise the five-fret alternative |
| `SidebarRules.Rings` | Assets/Script/Menu/MusicLibrary/Sidebar.cs:176-237 | ten rings, each given in full: guitar, bass, keys, pro keys and band (rings 0, 1, 3, 8, 9) with their icon, name and values; ring 2 the drums rule; ring 4 the vocals rule; ring 5 pro guitar or co-op guitar and ring 6 pro bass or rhythm by the pro-or-alternative rule, pro exactly when a fret variant exists; ring 7 true drums with intensity -1 |
| `SidebarRules.RingNamesDistinct` | Assets/Script/Menu/MusicLibrary/Sidebar.cs:176-237 | no two rings get the same instrument name |
| `SidebarRules.RingValuesFollowNames` | Assets/Script/Menu/MusicLibrary/Sidebar.cs:176-237 | each ring named after an instrument shows that instrument's values; the rest are ring 7 (intensity -1) and the two pro rings (fallback values) |
| `SidebarRules.FormatLength` | Assets/Script/Menu/MusicLibrary/Sidebar.cs:143-152 | the length text always has a colon separator |
| `SidebarRules.FormatLengthFields` | Assets/Script/Menu/MusicLibrary/Sidebar.cs:144-152 | three fields (h, mm, ss) when the hours component is positive, else two (m, ss); the padded fields have two digits |
| `SidebarRules.ClockComponents` | Assets/Script/Menu/MusicLibrary/Sidebar.cs:144 | hours, minutes and seconds components add up to the whole seconds modulo one day |
| `SidebarRules.ReadFormattedLength` | Assets/Script/Menu/MusicLibrary/Sidebar.cs:144-152 | read back as a clock, the length text is the song's whole seconds modulo one day |
| `SidebarRules.LengthDropsDays` | Assets/Script/Menu/MusicLibrary/Sidebar.cs:144-147 | a song one day and one minute long shows as "1:00" |
| `SidebarRules.SearchFilter` | Assets/Script/Menu/MusicLibrary/Sidebar.cs:267-286 | nothing when no song is selected; a search text exactly for the five keys; a throw exactly for any other key |
| `SidebarRules.SearchTextRoundTrip` | Assets/Script/Menu/MusicLibrary/Sidebar.cs:277-286 | the search text always contains a colon, even for an empty value, and splits at its first colon back into the key and the field's value |
| `SidebarPanel.Sidebar.constructor` | Assets/Script/Menu/MusicLibrary/Sidebar.cs:54-56 | no rings and no view shown yet |
| `SidebarPanel.Sidebar.Init` | Assets/Script/Menu/MusicLibrary/Sidebar.cs:58-76 | appends exactly ten rings, five in the top container then five in the bottom, keeping any earlier rings |
| `SidebarPanel.Sidebar.SetAllActive` | Assets/Script/Menu/MusicLibrary/Sidebar.cs:119-123 | every ring gets the given visibility and keeps everything else |
| `SidebarPanel.Sidebar.UpdateDifficulties` | Assets/Script/Menu/MusicLibrary/Sidebar.cs:160-238 | every ring is shown; rings 0-9 each get exactly the selected info once; other rings keep theirs |
| `SidebarPanel.Sidebar.UpdateSidebar` | Assets/Script/Menu/MusicLibrary/Sidebar.cs:78-158 | nothing for an empty list or the view already shown; otherwise the selection is recorded; a category view clears album, year and length and hides all rings; a song view sets the texts, the formatted length and the first ten rings, shows every ring, and keeps every ring's container and the info of rings past the tenth |

## Left out

- Audio backend internals are not modelled: `LoadMogg`, `LoadSong`, fade timing, `SetPosition`, `UnloadSong` and `AudioHelpers.GetSupportedStems`. The manager is an abstract value with a call log, a loaded flag, a position and a length. A load sets the length it is given and position 0; an unload clears the flag.
- The thread pool, real time and `UniTask.WaitUntil` are not modelled. The load is one "load finished" event. The 150 ms delay is a step boundary. The wait is a poll step that may run any number of times.
- Backend exceptions are modelled only where a call is awaited: the two fade-outs and the load. A synchronous throw from `SetPosition`, `FadeIn`, `UnloadSong` or the wait condition is not modelled.
- Disposal is not a separate state: a source is disposed exactly when it is cancelled. A PlayPreview call that throws `ObjectDisposedException` ends with its task faulted. What its caller does with the fault is not part of this model.
- `Mathf.Approximately(volume, 0)` is the boolean `Volume.nearZero`. The settings singleton is read as a volume argument of each step that reads it.
- Seconds are `real`, not IEEE doubles.
- `Constants.PREVIEW_DURATION` is not part of this model. It is the context's `previewDuration`, given at construction.
- `Debug.LogError`/`LogException` are a count of logged loop errors.
- The WaitUntil poll reads `PreviewEndTime` and the manager's length each time it runs. The model reads the fields at that moment in the same way.
- Unity widget work in the sidebar is not modelled: `Instantiate`, `Destroy`, TextMeshPro, `RawImage` and `HelpBar`. Texts are string fields and a ring is a value with its visibility.
- Album-cover loading is not modelled: `LoadAlbumCover` and its cancellation at `Sidebar.cs:91-97`. Neither are `RichTextUtils` or `PrimaryButtonClick`, which are UI-only.
- `SongSources.SourceToGameName` and `CategoryViewType.CountOf` are external. Their results are inputs: `SongMetadata.sourceName` and the category view's three counts.
- `SearchFilter` reads the selected view from the menu singleton. The model takes the selected song, or `None` when the selection is not a song. Its effect on the search box is the returned `SetSearchInput` text.
- The comparison of the shown view with the selection is modelled as identity of view objects, a view `id`.
- `SidebarPanel.Sidebar.Init`: a newly instantiated ring is taken to be active, as the ring prefab is assumed to be; the prefab's saved state is not part of this model.
- `UpdateDifficulties` and `UpdateSidebar` on a song view require at least ten rings, since the source indexes rings 0-9. Calling them before `Init` would throw, and that throw is not modelled.
- `PartValues`, `AvailableParts`, `DrumsType` and `Instrument` come from a library that is not part of this model. They are reduced to what the sidebar reads: intensity, presence, drum type and vocals count.
- `TimeSpan.FromMilliseconds` is taken on a whole number of milliseconds. Its `Hours`, `Minutes` and `Seconds` components are the day-wrapped parts.
- `Assets/Script/UI/SettingsMenu.cs` is not modelled. It is UI field binding, preference storage, a file browser and a network client start.

=== FILE: bass_preview_context.dfy ===
/**
 * BassPreviewContext as an object: the fields the source updates in place,
 * and one method per step of PlayPreview and StartLooping (cut at their
 * `await`s), plus StopPreview and Dispose. Each method's postcondition says
 * its new state is the matching PreviewModel step of its old state, so every
 * lemma of PreviewProperties applies to sequences of calls on one object.
 */
module BassPreview {
  import opened Wrappers
  import M = PreviewModel

  class PreviewContext {
    /** Constants.PREVIEW_DURATION, in seconds. */
    const previewDuration: real

    var previewStartTime: real
    var previewEndTime: real

    /** The audio manager the context drives, as an abstract value. */
    var manager: M.Audio

    var loopCanceller: Option<M.Handle>
    var loadCanceller: Option<M.Handle>

    var loadingPreview: bool
    var nextSongToLoad: Option<M.Song>

    /** How many cancellation sources have been created, and which of them are cancelled. */
    var created: nat
    var cancelled: set<M.Handle>

    /** Errors written to the log by the loop. */
    var errorsLogged: nat

    function State(): M.Session
      reads this
    {
      M.Session(loadingPreview, nextSongToLoad, loadCanceller, loopCanceller, created, cancelled,
                previewStartTime, previewEndTime, manager, errorsLogged)
    }

    constructor (previewDuration: real)
      ensures this.previewDuration == previewDuration
      ensures State() == M.InitialSession && M.Valid(State())
    {
      this.previewDuration := previewDuration;
      previewStartTime, previewEndTime := 0.0, 0.0;
      manager := M.Audio(false, 0.0, 0.0, []);
      loopCanceller, loadCanceller := None, None;
      loadingPreview, nextSongToLoad := false, None;
      created, cancelled := 0, {};
      errorsLogged := 0;
    }

    /** CancellationTokenSource.Cancel on the source `h`. */
    method Cancel(h: M.Handle)
      modifies this
      ensures State() == M.Cancel(old(State()), h)
    {
      cancelled := cancelled + {h};
    }

    /** `new CancellationTokenSource()`: the next handle. */
    method NewSource() returns (h: M.Handle)
      modifies this
      ensures h == old(created)
      ensures State() == old(State()).(created := old(created) + 1)
    {
      h := created;
      created := created + 1;
    }

    method StopPreview()
      modifies this
      ensures State() == M.StopPreview(old(State()))
    {
      if manager.loaded {
        manager := M.Unloaded(manager);
      }
      if loadCanceller.Some? && loadCanceller.value !in cancelled {
        Cancel(loadCanceller.value);
      }
      if loopCanceller.Some? && loopCanceller.value !in cancelled {
        Cancel(loopCanceller.value);
      }
    }

    method Dispose()
      modifies this
      ensures State() == M.StopPreview(old(State()))
    {
      StopPreview();
    }

    /** PlayPreview, from its entry to the fade-out it awaits. */
    method PlayPreview(song: Option<M.Song>, volume: M.Volume) returns (k: Option<M.Suspended>)
      modifies this
      ensures M.Step(State(), k) == M.PlayPreview(old(State()), song, volume)
    {
      if song.None? || volume.nearZero {
        return None;
      }
      if loadingPreview {
        if loadCanceller.Some? && loadCanceller.value in cancelled {
          // Cancel() on the already cancelled, hence disposed, source throws
          return None;
        }
        nextSongToLoad := song;
        return None;
      }
      if loadCanceller.Some? && loadCanceller.value in cancelled {
        // reading the Token of a disposed source throws
        return None;
      }
      manager := M.Logged(manager, M.FadeOut(loadCanceller));
      return Some(M.AtFadeOut(song.value));
    }

    /** PlayPreview, from the fade-out to the debounce delay it awaits. */
    method ResumeAfterFadeOut(song: M.Song, outcome: M.Outcome) returns (k: Option<M.Suspended>)
      modifies this
      ensures M.Step(State(), k) == M.ResumeAfterFadeOut(old(State()), song, outcome)
    {
      if outcome != M.Completed {
        return None;
      }
      if loadCanceller.Some? && loadCanceller.value in cancelled {
        return None;
      }
      StopPreview();
      var local := NewSource();
      loadCanceller := Some(local);
      return Some(M.AtDebounce(song, local));
    }

    /** PlayPreview, from the debounce delay to the load it awaits. */
    method ResumeAfterDebounce(song: M.Song, local: M.Handle) returns (k: Option<M.Suspended>)
      modifies this
      ensures M.Step(State(), k) == M.ResumeAfterDebounce(old(State()), song, local)
    {
      if local in cancelled {
        return None;
      }
      loadingPreview := true;
      return Some(M.AtLoad(song, local));
    }

    /** PlayPreview, from the end of the load to its return. */
    method FinishLoad(song: M.Song, local: M.Handle, outcome: M.Outcome, length: real, volume: M.Volume)
      returns (k: Option<M.Suspended>)
      modifies this
      ensures M.Step(State(), k) == M.FinishLoad(old(State()), song, local, outcome, length, volume, previewDuration)
    {
      if outcome != M.Completed {
        manager := M.Logged(manager, M.LoadCall(song));
        return None;
      }
      manager := M.Loaded(manager, song, length);
      loadingPreview := false;

      if local in cancelled {
        if nextSongToLoad.Some? {
          k := PlayPreview(nextSongToLoad, volume);
          nextSongToLoad := None;
        } else {
          k := None;
        }
        return;
      }

      previewStartTime := song.previewStart;
      if previewStartTime <= 0.0 {
        previewStartTime := M.DefaultPreviewStart;
      }
      previewEndTime := song.previewEnd;
      if previewEndTime <= 0.0 {
        previewEndTime := previewStartTime + previewDuration;
      }

      manager := M.Logged(manager, M.SetPosition(previewStartTime)).(position := previewStartTime);
      manager := M.Logged(manager, M.FadeIn(volume.level));
      k := StartLooping();
    }

    /** StartLooping, from its entry to the first wait. */
    method StartLooping() returns (k: Option<M.Suspended>)
      modifies this
      ensures M.Step(State(), k) == M.StartLooping(old(State()))
    {
      if loopCanceller.Some? && loopCanceller.value !in cancelled {
        Cancel(loopCanceller.value);
      }
      var local := NewSource();
      loopCanceller := Some(local);
      return Some(M.LoopWaiting(local));
    }

    /** One poll of the loop's WaitUntil. */
    method PollLoop(local: M.Handle) returns (k: Option<M.Suspended>)
      modifies this
      ensures M.Step(State(), k) == M.PollLoop(old(State()), local)
    {
      if local in cancelled {
        return None;
      }
      if manager.position >= previewEndTime || manager.position >= manager.length {
        manager := M.Logged(manager, M.FadeOut(Some(local)));
        return Some(M.LoopFading(local));
      }
      return Some(M.LoopWaiting(local));
    }

    /** The loop, from its fade-out to its next wait or its exit. */
    method ResumeLoopAfterFade(local: M.Handle, outcome: M.Outcome, volume: M.Volume)
      returns (k: Option<M.Suspended>)
      modifies this
      ensures M.Step(State(), k) == M.ResumeLoopAfterFade(old(State()), local, outcome, volume)
    {
      if outcome == M.Canceled {
        return None;
      }
      if outcome == M.Faulted {
        errorsLogged := errorsLogged + 1;
        return None;
      }
      if local in cancelled {
        // the Token of the disposed source throws, and the catch-all logs it
        errorsLogged := errorsLogged + 1;
        return None;
      }
      manager := M.Logged(manager, M.SetPosition(previewStartTime)).(position := previewStartTime);
      manager := M.Logged(manager, M.FadeIn(volume.level));
      return Some(M.LoopWaiting(local));
    }

    /** The manager's playback position moving on (the clock the loop polls). */
    method AdvancePlayback(position: real)
      modifies this
      ensures State() == old(State()).(audio := old(manager).(position := position))
    {
      manager := manager.(position := position);
    }
  }

  /**
   * Two requests inside the debounce delay, as calls on one context: the
   * earlier one returns after the delay without loading, the later one loads.
   */
  method DebouncedRequests(a: M.Song, b: M.Song, volume: M.Volume, duration: real)
    returns (first: Option<M.Suspended>, second: Option<M.Suspended>)
    requires !volume.nearZero
    ensures first == None
    ensures second == Some(M.AtLoad(b, 1))
  {
    var context := new PreviewContext(duration);
    var ka := context.PlayPreview(Some(a), volume);
    ka := context.ResumeAfterFadeOut(a, M.Completed);
    var kb := context.PlayPreview(Some(b), volume);
    kb := context.ResumeAfterFadeOut(b, M.Completed);
    first := context.ResumeAfterDebounce(a, 0);
    second := context.ResumeAfterDebounce(b, 1);
  }
}

=== FILE: preview_model.dfy ===
/**
 * The song-preview controller (BassPreviewContext) as a state machine.
 *
 * `Session` holds every field the controller updates, plus the abstract audio
 * manager it drives. `PlayPreview` and `StartLooping` are asynchronous in the
 * source; each is cut at its `await`s into steps, and a step that stops at an
 * `await` returns a `Suspended` value saying where the invocation is parked and
 * which locals it holds. Resuming it is another step. Interleavings of
 * overlapping invocations are therefore sequences of steps on one session.
 */
module PreviewModel {
  import opened Wrappers

  /**
   * A CancellationTokenSource, named by the order in which the controller
   * created it: a `Handle` is a reference to one, and two invocations holding
   * the same handle hold the same source.
   */
  type Handle = nat

  /** The song-entry kinds that select the load strategy. */
  datatype SongKind = ExtractedCon | StemFiles

  /** A song entry: its kind, where its stems are, its authored preview bounds in seconds. */
  datatype Song = Song(kind: SongKind, location: string, previewStart: real, previewEnd: real)

  /** The preview-volume setting; `nearZero` stands for Mathf.Approximately(level, 0). */
  datatype Volume = Volume(level: real, nearZero: bool)

  /** How an awaited operation came back: normally, with a cancellation exception, or with another exception. */
  datatype Outcome = Completed | Canceled | Faulted

  /** The calls the controller makes on its audio manager, in the order made. */
  datatype AudioCall =
    | FadeOut(token: Option<Handle>)
    | FadeIn(volume: real)
    | SetPosition(seconds: real)
    | LoadMogg(song: Song)
    | LoadSong(location: string)
    | UnloadSong

  /** The abstract audio manager: IsAudioLoaded, CurrentPositionD, AudioLengthD and a log of calls. */
  datatype Audio = Audio(loaded: bool, position: real, length: real, calls: seq<AudioCall>)

  /**
   * Every field of the controller; `created` and `cancelled` describe all
   * sources it has made. The controller disposes every source right after
   * cancelling it, and disposes no other, so `cancelled` is also the set of
   * disposed sources.
   */
  datatype Session = Session(
    loadingPreview: bool,
    nextSongToLoad: Option<Song>,
    loadCanceller: Option<Handle>,
    loopCanceller: Option<Handle>,
    created: nat,
    cancelled: set<Handle>,
    previewStart: real,
    previewEnd: real,
    audio: Audio,
    errorsLogged: nat)

  /** Where a suspended invocation is parked, with the locals it carries across the `await`. */
  datatype Suspended =
    | AtFadeOut(song: Song)                   // PlayPreview, awaiting the fade-out
    | AtDebounce(song: Song, local: Handle)   // PlayPreview, awaiting the 150 ms delay
    | AtLoad(song: Song, local: Handle)       // PlayPreview, awaiting the load on the thread pool
    | LoopWaiting(local: Handle)              // StartLooping, awaiting the end of the window
    | LoopFading(local: Handle)               // StartLooping, awaiting its fade-out

  /** The new session, and the invocation left suspended (None when it has returned). */
  datatype Step = Step(session: Session, next: Option<Suspended>)

  /** The seconds at which a preview starts when the song does not say. */
  const DefaultPreviewStart: real := 10.0

  const InitialSession: Session :=
    Session(false, None, None, None, 0, {}, 0.0, 0.0, Audio(false, 0.0, 0.0, []), 0)

  /**
   * What the controller keeps true of its sources: every handle it mentions
   * was created, and every source still live is one of the two fields, so
   * there is never more than one live load source and one live loop source.
   */
  ghost predicate Valid(s: Session) {
    && (forall h :: h in s.cancelled ==> h < s.created)
    && (s.loadCanceller.Some? ==> s.loadCanceller.value < s.created)
    && (s.loopCanceller.Some? ==> s.loopCanceller.value < s.created)
    && (forall h :: 0 <= h < s.created && h !in s.cancelled ==>
          s.loadCanceller == Some(h) || s.loopCanceller == Some(h))
  }

  /** `source?.IsCancellationRequested ?? false` */
  predicate CancellationRequested(s: Session, source: Option<Handle>) {
    source.Some? && source.value in s.cancelled
  }

  /** The handles an optional field holds, as a set. */
  function Held(source: Option<Handle>): set<Handle> {
    if source.Some? then {source.value} else {}
  }

  function Cancel(s: Session, h: Handle): Session {
    s.(cancelled := s.cancelled + {h})
  }

  function Logged(a: Audio, c: AudioCall): Audio {
    a.(calls := a.calls + [c])
  }

  /** UnloadSong: the manager releases the audio. */
  function Unloaded(a: Audio): Audio {
    Logged(a, UnloadSong).(loaded := false)
  }

  /** The load call a song's kind selects (LoadMogg for extracted CON songs, LoadSong otherwise). */
  function LoadCall(song: Song): AudioCall {
    if song.kind == ExtractedCon then LoadMogg(song) else LoadSong(song.location)
  }

  /** The manager after a load that returned: audio loaded, at position 0, of the given length. */
  function Loaded(a: Audio, song: Song, length: real): Audio {
    Logged(a, LoadCall(song)).(loaded := true, position := 0.0, length := length)
  }

  /** The preview window, PreviewStartTime and PreviewEndTime, defaulted from the song's authored bounds. */
  datatype Window = Window(start: real, end: real)

  function PreviewWindow(song: Song, duration: real): (w: Window)
    ensures w.start > 0.0
    ensures song.previewStart > 0.0 ==> w.start == song.previewStart
    ensures song.previewStart <= 0.0 ==> w.start == DefaultPreviewStart
    ensures song.previewEnd > 0.0 ==> w.end == song.previewEnd
    ensures song.previewEnd <= 0.0 ==> w.end == w.start + duration
    ensures song.previewStart <= 0.0 && song.previewEnd <= 0.0 ==>
      w == Window(DefaultPreviewStart, DefaultPreviewStart + duration)
    ensures duration > 0.0 && song.previewEnd <= 0.0 ==> w.end > w.start
  {
    var start := if song.previewStart <= 0.0 then DefaultPreviewStart else song.previewStart;
    Window(start, if song.previewEnd <= 0.0 then start + duration else song.previewEnd)
  }

  /**
   * StopPreview (and Dispose): unload if the manager has audio loaded, then
   * cancel each source field that is present and not yet cancelled.
   */
  function StopPreview(s: Session): (r: Session)
    ensures !r.audio.loaded
    ensures r.audio.calls == s.audio.calls + (if s.audio.loaded then [UnloadSong] else [])
    ensures r.cancelled == s.cancelled + Held(s.loadCanceller) + Held(s.loopCanceller)
    ensures r == s.(audio := s.audio.(loaded := false, calls := r.audio.calls), cancelled := r.cancelled)
  {
    var s1 := if s.audio.loaded then s.(audio := Unloaded(s.audio)) else s;
    var s2 :=
      if s1.loadCanceller.Some? && s1.loadCanceller.value !in s1.cancelled
      then Cancel(s1, s1.loadCanceller.value) else s1;
    if s2.loopCanceller.Some? && s2.loopCanceller.value !in s2.cancelled
    then Cancel(s2, s2.loopCanceller.value) else s2
  }

  /**
   * PlayPreview up to its first `await`: nothing for an absent song or a
   * near-zero volume; while a load is in flight, only record the song;
   * otherwise start fading out with the current load source's token.
   *
   * A cancelled load source is also disposed, so both other branches end the
   * call with an ObjectDisposedException when the load-source field is
   * cancelled: the in-flight branch cancels the field only when it is already
   * cancelled, and that Cancel throws before the song is recorded; the
   * fade-out branch reads the field's Token, which throws before any call.
   */
  function PlayPreview(s: Session, song: Option<Song>, volume: Volume): (r: Step)
    ensures song.None? || volume.nearZero || CancellationRequested(s, s.loadCanceller) ==> r == Step(s, None)
    ensures song.Some? && !volume.nearZero && !CancellationRequested(s, s.loadCanceller) && s.loadingPreview ==>
      r == Step(s.(nextSongToLoad := song), None)
    ensures song.Some? && !volume.nearZero && !CancellationRequested(s, s.loadCanceller) && !s.loadingPreview ==>
      && r.next == Some(AtFadeOut(song.value))
      && r.session == s.(audio := s.audio.(calls := s.audio.calls + [FadeOut(s.loadCanceller)]))
  {
    if song.None? || volume.nearZero then Step(s, None)
    else if s.loadingPreview then
      if CancellationRequested(s, s.loadCanceller) then Step(s, None)   // Cancel() on a disposed source
      else Step(s.(nextSongToLoad := song), None)
    else if CancellationRequested(s, s.loadCanceller) then Step(s, None)  // Token of a disposed source
    else
      Step(s.(audio := Logged(s.audio, FadeOut(s.loadCanceller))), Some(AtFadeOut(song.value)))
  }

  /**
   * PlayPreview after the fade-out: a faulted or cancelled fade ends the call;
   * so does a cancelled load source (the field, read now). Otherwise stop the
   * current preview, and only then create the new load source, which the call
   * keeps as its local copy.
   */
  function ResumeAfterFadeOut(s: Session, song: Song, outcome: Outcome): (r: Step)
    ensures outcome != Completed || CancellationRequested(s, s.loadCanceller) ==> r == Step(s, None)
    ensures outcome == Completed && !CancellationRequested(s, s.loadCanceller) ==>
      && r.next == Some(AtDebounce(song, s.created))
      && r.session.loadCanceller == Some(s.created)
      && r.session.created == s.created + 1
      && !r.session.audio.loaded
      && r.session == StopPreview(s).(loadCanceller := Some(s.created), created := s.created + 1)
    ensures outcome == Completed && !CancellationRequested(s, s.loadCanceller) && Valid(s) ==>
      && s.created !in r.session.cancelled
      && (forall h :: 0 <= h < s.created ==> h in r.session.cancelled)
  {
    if outcome != Completed then Step(s, None)
    else if CancellationRequested(s, s.loadCanceller) then Step(s, None)
    else
      var s1 := StopPreview(s);
      var local := s1.created;
      Step(s1.(loadCanceller := Some(local), created := local + 1), Some(AtDebounce(song, local)))
  }

  /** PlayPreview after the debounce delay: give up if the local source was cancelled, else start loading. */
  function ResumeAfterDebounce(s: Session, song: Song, local: Handle): (r: Step)
    ensures local in s.cancelled ==> r == Step(s, None)
    ensures local !in s.cancelled ==> r == Step(s.(loadingPreview := true), Some(AtLoad(song, local)))
  {
    if local in s.cancelled then Step(s, None)
    else Step(s.(loadingPreview := true), Some(AtLoad(song, local)))
  }

  /**
   * StartLooping up to its first `await`: cancel the loop source if it is
   * live, create a new one as the loop's local copy, and start waiting.
   */
  function StartLooping(s: Session): (r: Step)
    ensures r.next == Some(LoopWaiting(s.created))
    ensures r.session.loopCanceller == Some(s.created)
    ensures r.session.cancelled == s.cancelled + Held(s.loopCanceller)
    ensures r.session == s.(loopCanceller := Some(s.created), created := s.created + 1, cancelled := r.session.cancelled)
  {
    var s1 :=
      if s.loopCanceller.Some? && s.loopCanceller.value !in s.cancelled
      then Cancel(s, s.loopCanceller.value) else s;
    var local := s1.created;
    Step(s1.(loopCanceller := Some(local), created := local + 1), Some(LoopWaiting(local)))
  }

  /**
   * PlayPreview when the load finishes. A load that throws leaves the call
   * with `loadingPreview` still set. A load that returns clears the flag; then,
   * if the local source was cancelled, a pending song is replayed through
   * PlayPreview and the pending slot cleared; otherwise the window is set, the
   * manager seeks to its start and fades in, and the loop starts. The
   * load-source field is never touched here.
   */
  function FinishLoad(s: Session, song: Song, local: Handle, outcome: Outcome,
                      length: real, volume: Volume, duration: real): (r: Step)
    ensures outcome != Completed ==>
      r == Step(s.(audio := s.audio.(calls := s.audio.calls + [LoadCall(song)])), None)
    ensures outcome == Completed ==>
      && !r.session.loadingPreview && r.session.loadCanceller == s.loadCanceller
      && r.session.audio.loaded && r.session.audio.length == length
    ensures outcome == Completed && local in s.cancelled ==>
      && r.next == (if s.nextSongToLoad.Some? && !volume.nearZero && !CancellationRequested(s, s.loadCanceller)
                    then Some(AtFadeOut(s.nextSongToLoad.value)) else None)
      && r.session == s.(loadingPreview := false, nextSongToLoad := None, audio := r.session.audio)
      && r.session.audio == s.audio.(loaded := true, position := 0.0, length := length,
           calls := s.audio.calls + [LoadCall(song)] + (if r.next.Some? then [FadeOut(s.loadCanceller)] else []))
    ensures outcome == Completed && local !in s.cancelled ==>
      var w := PreviewWindow(song, duration);
      && r.next == Some(LoopWaiting(s.created))
      && r.session == s.(loadingPreview := false, previewStart := w.start, previewEnd := w.end,
           loopCanceller := Some(s.created), created := s.created + 1,
           cancelled := s.cancelled + Held(s.loopCanceller),
           audio := s.audio.(loaded := true, position := w.start, length := length,
             calls := s.audio.calls + [LoadCall(song), SetPosition(w.start), FadeIn(volume.level)]))
  {
    if outcome != Completed then
      Step(s.(audio := Logged(s.audio, LoadCall(song))), None)
    else
      var s1 := s.(audio := Loaded(s.audio, song, length), loadingPreview := false);
      if local in s1.cancelled then
        if s1.nextSongToLoad.Some? then
          var replay := PlayPreview(s1, s1.nextSongToLoad, volume);
          Step(replay.session.(nextSongToLoad := None), replay.next)
        else
          Step(s1, None)
      else
        var w := PreviewWindow(song, duration);
        var s2 := s1.(previewStart := w.start, previewEnd := w.end);
        var a := Logged(s2.audio, SetPosition(w.start)).(position := w.start);
        StartLooping(s2.(audio := Logged(a, FadeIn(volume.level))))
  }

  /** The loop's wait condition: the position has reached the window's end or the end of the audio. */
  predicate LoopPointReached(s: Session) {
    s.audio.position >= s.previewEnd || s.audio.position >= s.audio.length
  }

  /**
   * One poll of the loop's wait: a cancelled local source ends the loop
   * silently; a reached loop point starts the fade-out; otherwise keep waiting.
   */
  function PollLoop(s: Session, local: Handle): (r: Step)
    ensures local in s.cancelled ==> r == Step(s, None)
    ensures local !in s.cancelled && !LoopPointReached(s) ==> r == Step(s, Some(LoopWaiting(local)))
    ensures local !in s.cancelled && LoopPointReached(s) ==>
      r == Step(s.(audio := s.audio.(calls := s.audio.calls + [FadeOut(Some(local))])), Some(LoopFading(local)))
  {
    if local in s.cancelled then Step(s, None)
    else if LoopPointReached(s) then
      Step(s.(audio := Logged(s.audio, FadeOut(Some(local)))), Some(LoopFading(local)))
    else Step(s, Some(LoopWaiting(local)))
  }

  /**
   * The loop after its fade-out: a cancellation exception ends it silently and
   * any other exception is logged and ends it. A fade-out that returns after
   * the local source was cancelled also ends it with a logged error: that
   * source is disposed too, so reading its Token throws ObjectDisposedException,
   * which is not a cancellation. Otherwise seek to the window's start, fade
   * in, and wait again.
   */
  function ResumeLoopAfterFade(s: Session, local: Handle, outcome: Outcome, volume: Volume): (r: Step)
    ensures outcome == Canceled ==> r == Step(s, None)
    ensures outcome == Faulted || (outcome == Completed && local in s.cancelled) ==>
      r == Step(s.(errorsLogged := s.errorsLogged + 1), None)
    ensures outcome == Completed && local !in s.cancelled ==>
      && r.next == Some(LoopWaiting(local))
      && r.session == s.(audio := s.audio.(position := s.previewStart,
           calls := s.audio.calls + [SetPosition(s.previewStart), FadeIn(volume.level)]))
  {
    match outcome
    case Canceled => Step(s, None)
    case Faulted => Step(s.(errorsLogged := s.errorsLogged + 1), None)
    case Completed =>
      if local in s.cancelled then Step(s.(errorsLogged := s.errorsLogged + 1), None)
      else
        var a := Logged(s.audio, SetPosition(s.previewStart)).(position := s.previewStart);
        Step(s.(audio := Logged(a, FadeIn(volume.level))), Some(LoopWaiting(local)))
  }

  /** Resuming a suspended invocation, whichever step it is parked at. */
  function Resume(s: Session, k: Suspended, outcome: Outcome, length: real,
                  volume: Volume, duration: real): Step
  {
    match k
    case AtFadeOut(song) => ResumeAfterFadeOut(s, song, outcome)
    case AtDebounce(song, local) => ResumeAfterDebounce(s, song, local)
    case AtLoad(song, local) => FinishLoad(s, song, local, outcome, length, volume, duration)
    case LoopWaiting(local) => PollLoop(s, local)
    case LoopFading(local) => ResumeLoopAfterFade(s, local, outcome, volume)
  }

  /**
   * Everything that can happen to the controller: a PlayPreview call, a
   * StopPreview or Dispose call, a suspended invocation resuming, or the
   * manager's playback position moving on.
   */
  datatype Event =
    | Request(song: Option<Song>, volume: Volume)
    | Stop
    | Wake(k: Suspended, outcome: Outcome, length: real, volume: Volume)
    | Playback(position: real)

  function Apply(s: Session, e: Event, duration: real): Step {
    match e
    case Request(song, volume) => PlayPreview(s, song, volume)
    case Stop => Step(StopPreview(s), None)
    case Wake(k, outcome, length, volume) => Resume(s, k, outcome, length, volume, duration)
    case Playback(position) => Step(s.(audio := s.audio.(position := position)), None)
  }

  /**
   * The session after a sequence of events. A run may wake any suspended
   * value, not only those an earlier step returned, so what holds of every
   * run holds of every real interleaving.
   */
  function Run(s: Session, events: seq<Event>, duration: real): Session
    decreases |events|
  {
    if events == [] then s
    else Run(Apply(s, events[0], duration).session, events[1..], duration)
  }
}

=== FILE: preview_properties.dfy ===
/**
 * What the preview controller guarantees, and what it does not, stated over
 * the steps of PreviewModel: single steps, whole runs of events, and the
 * interleavings that debounce and in-flight coalescing are about.
 */
module PreviewProperties {
  import opened Wrappers
  import opened PreviewModel

  /** A second StopPreview neither unloads again nor cancels anything new. */
  lemma StopIsIdempotent(s: Session)
    ensures StopPreview(StopPreview(s)) == StopPreview(s)
    ensures StopPreview(StopPreview(s)).audio.calls == StopPreview(s).audio.calls
  {
  }

  /** Stopping a controller that never played makes no manager call and changes nothing. */
  lemma StopOnFreshController()
    ensures StopPreview(InitialSession) == InitialSession
  {
  }

  /** After StopPreview no source the controller ever created is live. */
  lemma StopCancelsEverySource(s: Session)
    requires Valid(s)
    ensures forall h :: 0 <= h < s.created ==> h in StopPreview(s).cancelled
  {
  }

  lemma FinishLoadKeepsValid(s: Session, song: Song, local: Handle, outcome: Outcome,
                             length: real, volume: Volume, duration: real)
    requires Valid(s)
    ensures Valid(FinishLoad(s, song, local, outcome, length, volume, duration).session)
  {
    if outcome == Completed {
      var s1 := s.(audio := Loaded(s.audio, song, length), loadingPreview := false);
      assert Valid(s1);
      if local !in s.cancelled {
        var w := PreviewWindow(song, duration);
        var s2 := s1.(previewStart := w.start, previewEnd := w.end);
        var a := Logged(s2.audio, SetPosition(w.start)).(position := w.start);
        var s3 := s2.(audio := Logged(a, FadeIn(volume.level)));
        assert Valid(s3);
        StartLoopingKeepsValid(s3);
      }
    }
  }

  lemma StartLoopingKeepsValid(s: Session)
    requires Valid(s)
    ensures Valid(StartLooping(s).session)
  {
  }

  lemma ResumeKeepsValid(s: Session, k: Suspended, outcome: Outcome, length: real,
                         volume: Volume, duration: real)
    requires Valid(s)
    ensures Valid(Resume(s, k, outcome, length, volume, duration).session)
  {
    match k
    case AtFadeOut(song) =>
    case AtDebounce(song, local) =>
    case AtLoad(song, local) => FinishLoadKeepsValid(s, song, local, outcome, length, volume, duration);
    case LoopWaiting(local) =>
    case LoopFading(local) =>
  }

  /** Every step keeps at most one live load source and one live loop source. */
  lemma ApplyKeepsValid(s: Session, e: Event, duration: real)
    requires Valid(s)
    ensures Valid(Apply(s, e, duration).session)
  {
    match e
    case Request(song, volume) =>
    case Stop =>
    case Playback(position) =>
    case Wake(k, outcome, length, volume) => ResumeKeepsValid(s, k, outcome, length, volume, duration);
  }

  lemma ApplyOnlyAddsCancellations(s: Session, e: Event, duration: real)
    ensures s.cancelled <= Apply(s, e, duration).session.cancelled
    ensures s.created <= Apply(s, e, duration).session.created
  {
  }

  /** However the steps interleave, no two load sources and no two loop sources are live at once. */
  lemma {:induction false} RunKeepsValid(s: Session, events: seq<Event>, duration: real)
    requires Valid(s)
    ensures Valid(Run(s, events, duration))
    decreases |events|
  {
    if events != [] {
      ApplyKeepsValid(s, events[0], duration);
      RunKeepsValid(Apply(s, events[0], duration).session, events[1..], duration);
    }
  }

  /** A cancelled source stays cancelled for ever. */
  lemma {:induction false} RunKeepsCancellations(s: Session, events: seq<Event>, duration: real)
    ensures s.cancelled <= Run(s, events, duration).cancelled
    ensures s.created <= Run(s, events, duration).created
    decreases |events|
  {
    if events != [] {
      ApplyOnlyAddsCancellations(s, events[0], duration);
      RunKeepsCancellations(Apply(s, events[0], duration).session, events[1..], duration);
    }
  }

  /**
   * A PlayPreview call whose load source has been replaced never starts its
   * load: at any later point its debounce step does nothing but return.
   */
  lemma SupersededCallNeverLoads(s: Session, events: seq<Event>, duration: real, song: Song, local: Handle)
    requires Valid(s)
    requires local < s.created && s.loadCanceller != Some(local) && s.loopCanceller != Some(local)
    ensures var t := Run(s, events, duration);
      ResumeAfterDebounce(t, song, local) == Step(t, None)
  {
    RunKeepsCancellations(s, events, duration);
  }

  /** A load resumes with the flag still set when it faults: the flag is only cleared by a load that returns. */
  predicate ReturningLoad(e: Event) {
    e.Wake? && e.k.AtLoad? && e.outcome == Completed
  }

  /**
   * Once `loadingPreview` is set, it stays set until some load returns
   * normally. Meanwhile every new PlayPreview call at most records its song; a
   * call already past the loading check can still start a load, and it is its
   * normal return that clears the flag.
   */
  lemma {:induction false} LoadingFlagNeedsReturningLoad(s: Session, events: seq<Event>, duration: real)
    requires s.loadingPreview
    requires forall i :: 0 <= i < |events| ==> !ReturningLoad(events[i])
    ensures Run(s, events, duration).loadingPreview
    decreases |events|
  {
    if events != [] {
      var t := Apply(s, events[0], duration).session;
      assert !ReturningLoad(events[0]);
      assert t.loadingPreview;
      assert forall i :: 0 <= i < |events[1..]| ==> !ReturningLoad(events[1..][i]) by {
        forall i | 0 <= i < |events[1..]| ensures !ReturningLoad(events[1..][i]) {
          assert events[1..][i] == events[i + 1];
        }
      }
      LoadingFlagNeedsReturningLoad(t, events[1..], duration);
    }
  }

  /**
   * The uninterrupted path from a fresh controller: fade out with the default
   * token, load, seek to the window's start, fade in, then loop; the load
   * source is the first one created and the loop source the second.
   */
  lemma FirstPreviewPlays(song: Song, volume: Volume, length: real, duration: real)
    requires !volume.nearZero
    ensures
      var r1 := PlayPreview(InitialSession, Some(song), volume);
      var r2 := ResumeAfterFadeOut(r1.session, song, Completed);
      var r3 := ResumeAfterDebounce(r2.session, song, 0);
      var r4 := FinishLoad(r3.session, song, 0, Completed, length, volume, duration);
      var w := PreviewWindow(song, duration);
      && r1.next == Some(AtFadeOut(song))
      && r2.next == Some(AtDebounce(song, 0))
      && r3.next == Some(AtLoad(song, 0)) && r3.session.loadingPreview
      && r4.next == Some(LoopWaiting(1))
      && r4.session.audio.calls == [FadeOut(None), LoadCall(song), SetPosition(w.start), FadeIn(volume.level)]
      && r4.session.loadCanceller == Some(0) && r4.session.loopCanceller == Some(1)
      && r4.session.cancelled == {}
      && !r4.session.loadingPreview
  {
  }

  /**
   * Debounce: two requests inside the delay. The second one's StopPreview
   * cancels the first one's source, so after the delay the first returns
   * without loading and only the second starts a load.
   */
  lemma DebounceKeepsOnlyLaterRequest(s: Session, a: Song, b: Song, volume: Volume)
    requires Valid(s) && !s.loadingPreview && !volume.nearZero
    requires !CancellationRequested(s, s.loadCanceller)
    ensures
      var r1 := PlayPreview(s, Some(a), volume);
      var r2 := ResumeAfterFadeOut(r1.session, a, Completed);
      var r3 := PlayPreview(r2.session, Some(b), volume);
      var r4 := ResumeAfterFadeOut(r3.session, b, Completed);
      var r5 := ResumeAfterDebounce(r4.session, a, s.created);
      var r6 := ResumeAfterDebounce(r5.session, b, s.created + 1);
      && r2.next == Some(AtDebounce(a, s.created))
      && r4.next == Some(AtDebounce(b, s.created + 1))
      && r5 == Step(r4.session, None)
      && r6.next == Some(AtLoad(b, s.created + 1))
      && r6.session.loadingPreview
  {
  }

  /**
   * In-flight coalescing as the code is written: a request that arrives while
   * a load runs under a live source is only recorded. The load is not
   * cancelled, so when it returns its own song plays, and the request stays
   * in the pending slot.
   */
  lemma InFlightRequestDoesNotCancelLoad(s: Session, a: Song, b: Song, local: Handle,
                                         volume: Volume, length: real, duration: real)
    requires s.loadingPreview && s.loadCanceller == Some(local) && local !in s.cancelled
    requires !volume.nearZero
    ensures
      var r1 := PlayPreview(s, Some(b), volume);
      var r2 := FinishLoad(r1.session, a, local, Completed, length, volume, duration);
      && r1 == Step(s.(nextSongToLoad := Some(b)), None)
      && local !in r1.session.cancelled
      && r2.next.Some? && r2.next.value.LoopWaiting?
      && r2.session.previewStart == PreviewWindow(a, duration).start
      && r2.session.nextSongToLoad == Some(b)
  {
  }

  /**
   * In-flight coalescing when the load's own source was cancelled but the
   * load-source field is live (another call has replaced it): once the load
   * returns, the pending song is replayed up to its fade-out and the slot is
   * cleared; the window and the seek and fade-in are left alone.
   */
  lemma CancelledLoadReplaysPending(s: Session, a: Song, b: Song, local: Handle,
                                    volume: Volume, length: real, duration: real)
    requires s.loadingPreview && local in s.cancelled && !volume.nearZero
    requires !CancellationRequested(s, s.loadCanceller)
    ensures
      var r1 := PlayPreview(s, Some(b), volume);
      var r2 := FinishLoad(r1.session, a, local, Completed, length, volume, duration);
      && r2.next == Some(AtFadeOut(b))
      && r2.session.nextSongToLoad == None
      && r2.session.previewStart == s.previewStart && r2.session.previewEnd == s.previewEnd
      && r2.session.audio.calls == s.audio.calls + [LoadCall(a), FadeOut(s.loadCanceller)]
  {
  }

  /**
   * A load whose source is the field itself, cancelled by a StopPreview from
   * outside, drops every request made meanwhile: the request's Cancel() on the
   * disposed source throws before the song is recorded. When the load returns
   * the flag is cleared, no song is replayed and nothing plays.
   */
  lemma StoppedLoadDropsRequest(s: Session, a: Song, b: Song, local: Handle,
                                volume: Volume, length: real, duration: real)
    requires s.loadingPreview && s.loadCanceller == Some(local) && local in s.cancelled
    ensures
      var r1 := PlayPreview(s, Some(b), volume);
      var r2 := FinishLoad(r1.session, a, local, Completed, length, volume, duration);
      && r1 == Step(s, None)
      && r2.next == None
      && r2.session == s.(loadingPreview := false, nextSongToLoad := None, audio := r2.session.audio)
      && r2.session.audio.calls == s.audio.calls + [LoadCall(a)]
  {
  }

  /** While the load-source field holds a cancelled source, no event replaces it or revives it. */
  lemma CancelledLoadFieldStays(s: Session, e: Event, duration: real)
    requires CancellationRequested(s, s.loadCanceller)
    ensures Apply(s, e, duration).session.loadCanceller == s.loadCanceller
    ensures CancellationRequested(Apply(s, e, duration).session, s.loadCanceller)
  {
    ApplyOnlyAddsCancellations(s, e, duration);
  }

  /**
   * A StopPreview from outside disables the controller for good: the
   * load-source field keeps the disposed source, since only a call that gets
   * past the fade-out replaces it, and every later PlayPreview throws before
   * its fade-out (or before recording its song), whatever runs in between.
   */
  lemma {:induction false} StopDisablesLaterRequests(s: Session, events: seq<Event>, duration: real,
                                                     song: Option<Song>, volume: Volume)
    requires s.loadCanceller.Some?
    ensures var t := Run(StopPreview(s), events, duration);
      && t.loadCanceller == s.loadCanceller
      && PlayPreview(t, song, volume) == Step(t, None)
  {
    CancelledFieldPersists(StopPreview(s), events, duration);
  }

  lemma {:induction false} CancelledFieldPersists(s: Session, events: seq<Event>, duration: real)
    requires CancellationRequested(s, s.loadCanceller)
    ensures Run(s, events, duration).loadCanceller == s.loadCanceller
    ensures CancellationRequested(Run(s, events, duration), s.loadCanceller)
    decreases |events|
  {
    if events != [] {
      CancelledLoadFieldStays(s, events[0], duration);
      CancelledFieldPersists(Apply(s, events[0], duration).session, events[1..], duration);
    }
  }

  /**
   * Loads can overlap. A request that passed the loading check before another
   * call set the flag is suspended in its fade-out; when it resumes it stops
   * that load's source and starts its own load while the first is in flight.
   * When the first load returns it clears the flag although the second load
   * is still running under a live source.
   */
  lemma LoadsCanOverlap(s: Session, a: Song, b: Song, volume: Volume, length: real, duration: real)
    requires Valid(s) && !s.loadingPreview && s.nextSongToLoad == None && !volume.nearZero
    requires !CancellationRequested(s, s.loadCanceller)
    ensures
      var ha, hb := s.created, s.created + 1;
      var r1 := PlayPreview(s, Some(a), volume);
      var r2 := ResumeAfterFadeOut(r1.session, a, Completed);
      var r3 := PlayPreview(r2.session, Some(b), volume);
      var r4 := ResumeAfterDebounce(r3.session, a, ha);
      var r5 := ResumeAfterFadeOut(r4.session, b, Completed);
      var r6 := ResumeAfterDebounce(r5.session, b, hb);
      var r7 := FinishLoad(r6.session, a, ha, Completed, length, volume, duration);
      && r3.next == Some(AtFadeOut(b))
      && r4.next == Some(AtLoad(a, ha))
      && r6.next == Some(AtLoad(b, hb))
      && r7.next == None
      && !r7.session.loadingPreview
      && hb !in r7.session.cancelled && r7.session.loadCanceller == Some(hb)
  {
  }

  /**
   * One turn of the loop: at the loop point it fades out, then seeks to the
   * window's start and fades in, and waits again; when the window lies inside
   * the audio the next poll keeps waiting.
   */
  lemma LoopCycle(s: Session, local: Handle, volume: Volume)
    requires local !in s.cancelled && LoopPointReached(s)
    ensures
      var r1 := PollLoop(s, local);
      var r2 := ResumeLoopAfterFade(r1.session, local, Completed, volume);
      && r1.next == Some(LoopFading(local))
      && r2.next == Some(LoopWaiting(local))
      && r2.session.audio.calls ==
           s.audio.calls + [FadeOut(Some(local)), SetPosition(s.previewStart), FadeIn(volume.level)]
      && (s.previewStart < s.previewEnd && s.previewStart < s.audio.length ==>
            PollLoop(r2.session, local) == Step(r2.session, Some(LoopWaiting(local))))
  {
  }

  /**
   * A new loop cancels the previous one, so the old loop's next step ends it:
   * silently when it was waiting, with a logged error when its fade-out
   * returns normally (the old source is disposed by then).
   */
  lemma NewLoopEndsOldLoop(s: Session, previous: Handle, volume: Volume)
    requires s.loopCanceller == Some(previous)
    ensures
      var r := StartLooping(s);
      && PollLoop(r.session, previous) == Step(r.session, None)
      && ResumeLoopAfterFade(r.session, previous, Completed, volume) ==
           Step(r.session.(errorsLogged := s.errorsLogged + 1), None)
  {
  }

  /**
   * The authored preview bounds are not checked against each other: an end
   * before the start gives an inverted window, an end equal to it an empty one.
   */
  lemma AuthoredWindowIsNotChecked(song: Song, duration: real)
    requires 0.0 < song.previewEnd <= song.previewStart
    ensures PreviewWindow(song, duration).end <= PreviewWindow(song, duration).start
    ensures song.previewEnd < song.previewStart ==> PreviewWindow(song, duration).end < PreviewWindow(song, duration).start
  {
  }
}

=== FILE: sidebar.dfy ===
/**
 * The music-library sidebar as an object: its list of difficulty rings, the
 * view it last showed, and the texts it sets. Widget work (instantiation,
 * textures, the help bar) is reduced to these fields.
 */
module SidebarPanel {
  import opened Wrappers
  import opened TextFormat
  import R = SidebarRules

  /** The two containers rings are spawned into. */
  datatype Container = TopRow | BottomRow

  /** A difficulty ring: where it was spawned, whether it is active, and what SetInfo last gave it. */
  datatype Ring = Ring(container: Container, active: bool, info: Option<R.RingInfo>)

  /** A ring as spawned from the prefab: active, with nothing set yet. */
  function Spawned(c: Container): Ring {
    Ring(c, true, None)
  }

  /** What a view entry of the library shows: a category summary, a song, or something else. */
  datatype ViewKind =
    | CategoryView(sourceCount: nat, charterCount: nat, genreCount: nat)
    | SongView(song: R.SongMetadata)
    | OtherView

  /** A view entry; `id` is its identity, which is what the last-shown check compares. */
  datatype View = View(id: nat, kind: ViewKind)

  class Sidebar {
    var rings: seq<Ring>
    var currentView: Option<View>
    var album: string
    var source: string
    var charter: string
    var genre: string
    var year: string
    var length: string

    constructor ()
      ensures rings == [] && currentView == None
    {
      rings := [];
      currentView := None;
      album, source, charter, genre, year, length := "", "", "", "", "", "";
    }

    /** Spawns five rings into the top container, then five into the bottom one. */
    method Init()
      modifies this`rings
      ensures |rings| == |old(rings)| + 10
      ensures rings[..|old(rings)|] == old(rings)
      ensures forall i :: |old(rings)| <= i < |old(rings)| + 5 ==> rings[i] == Spawned(TopRow)
      ensures forall i :: |old(rings)| + 5 <= i < |rings| ==> rings[i] == Spawned(BottomRow)
    {
      var n := |rings|;
      for i := 0 to 5
        invariant |rings| == n + i && rings[..n] == old(rings)
        invariant forall j :: n <= j < n + i ==> rings[j] == Spawned(TopRow)
      {
        rings := rings + [Spawned(TopRow)];
      }
      for i := 0 to 5
        invariant |rings| == n + 5 + i && rings[..n] == old(rings)
        invariant forall j :: n <= j < n + 5 ==> rings[j] == Spawned(TopRow)
        invariant forall j :: n + 5 <= j < n + 5 + i ==> rings[j] == Spawned(BottomRow)
      {
        rings := rings + [Spawned(BottomRow)];
      }
    }

    /** Sets every ring's visibility, keeping what it shows. */
    method SetAllActive(active: bool)
      modifies this`rings
      ensures |rings| == |old(rings)|
      ensures forall i :: 0 <= i < |rings| ==> rings[i] == old(rings[i]).(active := active)
    {
      var i := 0;
      while i < |rings|
        invariant 0 <= i <= |rings| == |old(rings)|
        invariant forall j :: 0 <= j < i ==> rings[j] == old(rings[j]).(active := active)
        invariant forall j :: i <= j < |rings| ==> rings[j] == old(rings[j])
      {
        rings := rings[i := rings[i].(active := active)];
        i := i + 1;
      }
    }

    /**
     * Shows every ring, then gives rings 0 to 9, each once, the icon, name and
     * values the song's parts select.
     */
    method UpdateDifficulties(parts: R.AvailableParts)
      requires |rings| >= 10
      modifies this`rings
      ensures |rings| == |old(rings)|
      ensures forall i :: 0 <= i < |rings| ==> rings[i].active && rings[i].container == old(rings[i].container)
      ensures forall i :: 0 <= i < 10 ==> rings[i].info == Some(R.Rings(parts)[i])
      ensures forall i :: 10 <= i < |rings| ==> rings[i].info == old(rings[i].info)
    {
      SetAllActive(true);
      var infos := R.Rings(parts);
      var i := 0;
      while i < 10
        invariant 0 <= i <= 10 && |rings| == |old(rings)|
        invariant forall j :: 0 <= j < |rings| ==> rings[j].active && rings[j].container == old(rings[j].container)
        invariant forall j :: 0 <= j < i ==> rings[j].info == Some(infos[j])
        invariant forall j :: i <= j < |rings| ==> rings[j].info == old(rings[j].info)
      {
        rings := rings[i := rings[i].(info := Some(infos[i]))];
        i := i + 1;
      }
    }

    /**
     * Shows the selected view: nothing happens for an empty list or for the
     * view already shown. A category view clears album, year and length and
     * hides every ring; a song view fills the texts, formats the length and
     * assigns the rings; any other view is only recorded.
     */
    method UpdateSidebar(viewCount: nat, selection: View)
      requires selection.kind.SongView? ==> |rings| >= 10
      modifies this
      ensures viewCount == 0 || (old(currentView).Some? && old(currentView).value.id == selection.id) ==>
        && rings == old(rings) && currentView == old(currentView)
        && album == old(album) && source == old(source) && charter == old(charter)
        && genre == old(genre) && year == old(year) && length == old(length)
      ensures viewCount > 0 && !(old(currentView).Some? && old(currentView).value.id == selection.id) ==>
        && currentView == Some(selection)
        && |rings| == |old(rings)|
        && (selection.kind.CategoryView? ==>
              && album == "" && year == "" && length == ""
              && source == NatToString(selection.kind.sourceCount) + " sources"
              && charter == NatToString(selection.kind.charterCount) + " charters"
              && genre == NatToString(selection.kind.genreCount) + " genres"
              && forall i :: 0 <= i < |rings| ==> rings[i] == old(rings[i]).(active := false))
        && (selection.kind.SongView? ==>
              var song := selection.kind.song;
              && album == song.album && source == song.sourceName && charter == song.charter
              && genre == song.genre && year == song.year && length == R.FormatLength(song.songLength)
              && (forall i :: 0 <= i < |rings| ==> rings[i].active && rings[i].container == old(rings[i].container))
              && (forall i :: 0 <= i < 10 ==> rings[i].info == Some(R.Rings(song.parts)[i]))
              && forall i :: 10 <= i < |rings| ==> rings[i].info == old(rings[i].info))
        && (selection.kind.OtherView? ==>
              && rings == old(rings)
              && album == old(album) && source == old(source) && charter == old(charter)
              && genre == old(genre) && year == old(year) && length == old(length))
    {
      if viewCount <= 0 {
        return;
      }
      if currentView.Some? && currentView.value.id == selection.id {
        return;
      }
      currentView := Some(selection);

      match selection.kind
      case CategoryView(sources, charters, genres) =>
        album := "";
        source := NatToString(sources) + " sources";
        charter := NatToString(charters) + " charters";
        genre := NatToString(genres) + " genres";
        year := "";
        length := "";
        SetAllActive(false);
      case SongView(song) =>
        album := song.album;
        source := song.sourceName;
        charter := song.charter;
        genre := song.genre;
        year := song.year;
        length := R.FormatLength(song.songLength);
        UpdateDifficulties(song.parts);
      case OtherView =>
    }
  }
}

=== FILE: sidebar_rules.dfy ===
/**
 * The decision rules under the music-library sidebar: which icon, name and
 * part values each of the ten difficulty rings shows, how a song's length is
 * written, and which search text a filter key produces.
 */
module SidebarRules {
  import opened Wrappers
  import opened TextFormat

  /** The instruments whose part values the sidebar asks for. */
  datatype Instrument =
    | FiveFretGuitar | FiveFretBass | FiveFretRhythm | FiveFretCoopGuitar
    | Keys | FourLaneDrums | FiveLaneDrums
    | ProGuitar17Fret | ProGuitar22Fret | ProBass17Fret | ProBass22Fret
    | ProKeys | Vocals | Harmony | Band

  /** The drum type a chart declares; only FiveLane is told apart by the sidebar. */
  datatype DrumsType = FourLane | ProDrums | FiveLane | UnknownDrums

  /** A part's values; intensity -1 means the part is absent. */
  datatype PartValues = PartValues(intensity: int, subTracks: nat, difficulties: nat)

  /** `new PartValues(-1)` */
  const NoPart := PartValues(-1, 0, 0)

  /** A song's available parts: GetValues, HasInstrument, GetDrumType and VocalsCount. */
  datatype AvailableParts = AvailableParts(
    values: Instrument -> PartValues,
    has: Instrument -> bool,
    drumType: DrumsType,
    vocalsCount: int)

  /** What SetInfo gives a ring: an icon, an instrument name, and part values. */
  datatype RingInfo = RingInfo(icon: string, name: string, values: PartValues)

  /** Ring 2: the five-lane drums when the chart's drum type is five-lane, else the four-lane drums. */
  function DrumsRing(parts: AvailableParts): (r: RingInfo)
    ensures r.icon == "ghDrums" <==> parts.drumType == FiveLane
    ensures r.name == "FiveLaneDrums" <==> parts.drumType == FiveLane
    ensures r.name == "FiveLaneDrums" || r.name == "FourLaneDrums"
    ensures r.values == parts.values(if parts.drumType == FiveLane then FiveLaneDrums else FourLaneDrums)
    ensures parts.drumType == FiveLane ==> r == RingInfo("ghDrums", "FiveLaneDrums", parts.values(FiveLaneDrums))
    ensures parts.drumType != FiveLane ==> r == RingInfo("drums", "FourLaneDrums", parts.values(FourLaneDrums))
  {
    if parts.drumType == FiveLane then RingInfo("ghDrums", "FiveLaneDrums", parts.values(FiveLaneDrums))
    else RingInfo("drums", "FourLaneDrums", parts.values(FourLaneDrums))
  }

  /** The harmony icon for a vocals count: two parts, three or more, or otherwise. */
  function VocalsIcon(count: int): (icon: string)
    ensures icon == "twoVocals" <==> count == 2
    ensures icon == "harmVocals" <==> count >= 3
    ensures icon == "vocals" <==> count < 2
  {
    if count == 2 then "twoVocals"
    else if count >= 3 then "harmVocals"
    else "vocals"
  }

  /** Ring 4: harmony, with the icon chosen by the vocals count, when there is harmony; else solo vocals. */
  function VocalsRing(parts: AvailableParts): (r: RingInfo)
    ensures r.name == "Harmony" <==> parts.has(Harmony)
    ensures parts.has(Harmony) ==> r.icon == VocalsIcon(parts.vocalsCount) && r.values == parts.values(Harmony)
    ensures !parts.has(Harmony) ==> r.icon == "vocals" && r.name == "Vocals" && r.values == parts.values(Vocals)
  {
    if parts.has(Harmony) then RingInfo(VocalsIcon(parts.vocalsCount), "Harmony", parts.values(Harmony))
    else RingInfo("vocals", "Vocals", parts.values(Vocals))
  }

  /** The 17-fret values, unless their intensity is -1; then the 22-fret values. */
  function ProFallback(values17: PartValues, values22: PartValues): (v: PartValues)
    ensures v == values17 || v == values22
    ensures values17.intensity != -1 ==> v == values17
    ensures values17.intensity == -1 ==> v == values22
    ensures v.intensity == -1 <==> values17.intensity == -1 && values22.intensity == -1
  {
    if values17.intensity == -1 then values22 else values17
  }

  /**
   * Rings 5 and 6: the pro part when either of its fret variants exists,
   * with the 17-fret values preferred; otherwise the five-fret alternative.
   */
  function ProOrAlternativeRing(parts: AvailableParts, pro17: Instrument, pro22: Instrument,
                                proIcon: string, proName: string,
                                other: Instrument, otherIcon: string, otherName: string): (r: RingInfo)
    requires proName != otherName
    ensures r.name == proName <==> parts.has(pro17) || parts.has(pro22)
    ensures r.name == proName ==> r.icon == proIcon && r.values == ProFallback(parts.values(pro17), parts.values(pro22))
    ensures r.name != proName ==> r == RingInfo(otherIcon, otherName, parts.values(other))
  {
    if parts.has(pro17) || parts.has(pro22) then
      RingInfo(proIcon, proName, ProFallback(parts.values(pro17), parts.values(pro22)))
    else
      RingInfo(otherIcon, otherName, parts.values(other))
  }

  /** The instrument a ring's name stands for, when there is one. */
  function InstrumentNamed(name: string): Option<Instrument> {
    match name
    case "FiveFretGuitar" => Some(FiveFretGuitar)
    case "FiveFretBass" => Some(FiveFretBass)
    case "FiveFretRhythm" => Some(FiveFretRhythm)
    case "FiveFretCoopGuitar" => Some(FiveFretCoopGuitar)
    case "Keys" => Some(Keys)
    case "FourLaneDrums" => Some(FourLaneDrums)
    case "FiveLaneDrums" => Some(FiveLaneDrums)
    case "ProKeys" => Some(ProKeys)
    case "Vocals" => Some(Vocals)
    case "Harmony" => Some(Harmony)
    case "Band" => Some(Band)
    case _ => None
  }

  /**
   * The ten rings, top row then bottom row:
   * guitar, bass, 4- or 5-lane drums, keys, vocals or harmony;
   * pro guitar or co-op, pro bass or rhythm, true drums, pro keys, band.
   */
  function Rings(parts: AvailableParts): (rings: seq<RingInfo>)
    ensures |rings| == 10
    ensures rings[2] == DrumsRing(parts) && rings[4] == VocalsRing(parts)
    ensures rings[7] == RingInfo("trueDrums", "TrueDrums", NoPart)
    ensures rings[0] == RingInfo("guitar", "FiveFretGuitar", parts.values(FiveFretGuitar))
    ensures rings[1] == RingInfo("bass", "FiveFretBass", parts.values(FiveFretBass))
    ensures rings[3] == RingInfo("keys", "Keys", parts.values(Keys))
    ensures rings[5] == ProOrAlternativeRing(parts, ProGuitar17Fret, ProGuitar22Fret, "realGuitar", "ProGuitar",
                                             FiveFretCoopGuitar, "guitarCoop", "FiveFretCoopGuitar")
    ensures rings[6] == ProOrAlternativeRing(parts, ProBass17Fret, ProBass22Fret, "realBass", "ProBass",
                                             FiveFretRhythm, "rhythm", "FiveFretRhythm")
    ensures rings[8] == RingInfo("realKeys", "ProKeys", parts.values(ProKeys))
    ensures rings[9] == RingInfo("band", "Band", parts.values(Band))
    ensures rings[5].name == "ProGuitar" <==> parts.has(ProGuitar17Fret) || parts.has(ProGuitar22Fret)
    ensures rings[6].name == "ProBass" <==> parts.has(ProBass17Fret) || parts.has(ProBass22Fret)
  {
    [ RingInfo("guitar", "FiveFretGuitar", parts.values(FiveFretGuitar)),
      RingInfo("bass", "FiveFretBass", parts.values(FiveFretBass)),
      DrumsRing(parts),
      RingInfo("keys", "Keys", parts.values(Keys)),
      VocalsRing(parts),
      ProOrAlternativeRing(parts, ProGuitar17Fret, ProGuitar22Fret, "realGuitar", "ProGuitar",
                           FiveFretCoopGuitar, "guitarCoop", "FiveFretCoopGuitar"),
      ProOrAlternativeRing(parts, ProBass17Fret, ProBass22Fret, "realBass", "ProBass",
                           FiveFretRhythm, "rhythm", "FiveFretRhythm"),
      RingInfo("trueDrums", "TrueDrums", NoPart),
      RingInfo("realKeys", "ProKeys", parts.values(ProKeys)),
      RingInfo("band", "Band", parts.values(Band)) ]
  }

  /** Each ring shows a different instrument: no name is given to two rings. */
  lemma RingNamesDistinct(parts: AvailableParts)
    ensures forall i, j :: 0 <= i < j < 10 ==> Rings(parts)[i].name != Rings(parts)[j].name
  {
  }

  /**
   * Every ring whose name is an instrument shows that instrument's values;
   * the others are the true-drums ring, which always shows no part, and the
   * two pro rings, which show the 17-fret values with the 22-fret fallback.
   */
  lemma RingValuesFollowNames(parts: AvailableParts)
    ensures forall i :: 0 <= i < 10 && InstrumentNamed(Rings(parts)[i].name).Some? ==>
      Rings(parts)[i].values == parts.values(InstrumentNamed(Rings(parts)[i].name).value)
    ensures forall i :: 0 <= i < 10 && InstrumentNamed(Rings(parts)[i].name).None? ==>
      || (i == 7 && Rings(parts)[i].values.intensity == -1)
      || (i == 5 && Rings(parts)[i].values == ProFallback(parts.values(ProGuitar17Fret), parts.values(ProGuitar22Fret)))
      || (i == 6 && Rings(parts)[i].values == ProFallback(parts.values(ProBass17Fret), parts.values(ProBass22Fret)))
  {
    forall i | 0 <= i < 10
      ensures InstrumentNamed(Rings(parts)[i].name).Some? ==>
        Rings(parts)[i].values == parts.values(InstrumentNamed(Rings(parts)[i].name).value)
      ensures InstrumentNamed(Rings(parts)[i].name).None? ==>
        || (i == 7 && Rings(parts)[i].values.intensity == -1)
        || (i == 5 && Rings(parts)[i].values == ProFallback(parts.values(ProGuitar17Fret), parts.values(ProGuitar22Fret)))
        || (i == 6 && Rings(parts)[i].values == ProFallback(parts.values(ProBass17Fret), parts.values(ProBass22Fret)))
    {
      RingValueFollowsName(parts, i);
    }
  }

  /** RingValuesFollowNames for the single ring `i`. */
  lemma RingValueFollowsName(parts: AvailableParts, i: nat)
    requires i < 10
    ensures InstrumentNamed(Rings(parts)[i].name).Some? ==>
      Rings(parts)[i].values == parts.values(InstrumentNamed(Rings(parts)[i].name).value)
    ensures InstrumentNamed(Rings(parts)[i].name).None? ==>
      || (i == 7 && Rings(parts)[i].values.intensity == -1)
      || (i == 5 && Rings(parts)[i].values == ProFallback(parts.values(ProGuitar17Fret), parts.values(ProGuitar22Fret)))
      || (i == 6 && Rings(parts)[i].values == ProFallback(parts.values(ProBass17Fret), parts.values(ProBass22Fret)))
  {
    var r := Rings(parts);
    if i == 2 {
      assert InstrumentNamed("FiveLaneDrums") == Some(FiveLaneDrums);
      assert InstrumentNamed("FourLaneDrums") == Some(FourLaneDrums);
    } else if i == 4 {
      assert InstrumentNamed("Harmony") == Some(Harmony);
      assert InstrumentNamed("Vocals") == Some(Vocals);
    } else if i == 5 {
      assert InstrumentNamed("ProGuitar") == None;
      assert InstrumentNamed("FiveFretCoopGuitar") == Some(FiveFretCoopGuitar);
    } else if i == 6 {
      assert InstrumentNamed("ProBass") == None;
      assert InstrumentNamed("FiveFretRhythm") == Some(FiveFretRhythm);
    }
  }

  /** The components of TimeSpan.FromMilliseconds(ms): Hours (0-23), Minutes and Seconds (0-59). */
  function Hours(ms: nat): nat { (ms / 3_600_000) % 24 }
  function Minutes(ms: nat): nat { (ms / 60_000) % 60 }
  function Seconds(ms: nat): nat { (ms / 1000) % 60 }

  /** The sidebar's length text: `h:mm:ss` when the hours component is positive, else `m:ss`. */
  function FormatLength(ms: nat): (text: string)
    ensures ':' in text
  {
    if Hours(ms) > 0 then
      NatToString(Hours(ms)) + ":" + Pad2(Minutes(ms)) + ":" + Pad2(Seconds(ms))
    else
      NatToString(Minutes(ms)) + ":" + Pad2(Seconds(ms))
  }

  /**
   * The fields of the length text: three when the hours component is
   * positive, two otherwise; every field after the first has two digits.
   */
  lemma FormatLengthFields(ms: nat)
    ensures Hours(ms) > 0 ==>
      Split(FormatLength(ms), ':') == [NatToString(Hours(ms)), Pad2(Minutes(ms)), Pad2(Seconds(ms))]
    ensures Hours(ms) == 0 ==>
      Split(FormatLength(ms), ':') == [NatToString(Minutes(ms)), Pad2(Seconds(ms))]
  {
    var s := Pad2(Seconds(ms));
    SplitWithout(s, ':');
    if Hours(ms) > 0 {
      var h, m := NatToString(Hours(ms)), Pad2(Minutes(ms));
      SplitAfter(m, ':', s);
      assert h + ":" + m + ":" + s == h + [':'] + (m + [':'] + s);
      SplitAfter(h, ':', m + [':'] + s);
    } else {
      var m := NatToString(Minutes(ms));
      assert m + ":" + s == m + [':'] + s;
      SplitAfter(m, ':', s);
    }
  }

  /** The whole seconds of `ms` modulo a day, as hours, minutes and seconds components. */
  lemma ClockComponents(ms: nat)
    ensures (ms / 1000) % 86400 == Hours(ms) * 3600 + Minutes(ms) * 60 + Seconds(ms)
  {
    var t := ms / 1000;
    var a, sec := t / 60, t % 60;
    var b, min := a / 60, a % 60;
    var d, hr := b / 24, b % 24;
    assert ms == (ms / 1000) * 1000 + ms % 1000;
    assert ms == a * 60_000 + (sec * 1000 + ms % 1000);
    DivModUnique(ms, 60_000, a, sec * 1000 + ms % 1000);
    assert t == b * 3600 + (min * 60 + sec);
    assert ms == b * 3_600_000 + ((min * 60 + sec) * 1000 + ms % 1000);
    DivModUnique(ms, 3_600_000, b, (min * 60 + sec) * 1000 + ms % 1000);
    assert t == d * 86400 + (hr * 3600 + min * 60 + sec);
    DivModUnique(t, 86400, d, hr * 3600 + min * 60 + sec);
  }

  /**
   * Read back as a clock, the length text gives the song's whole seconds
   * modulo one day: a length of a day or more loses its days.
   */
  lemma ReadFormattedLength(ms: nat)
    ensures ReadClock(FormatLength(ms)) == (ms / 1000) % 86400
  {
    FormatLengthFields(ms);
    ClockComponents(ms);
    ParseNatToString(Hours(ms));
    ParseNatToString(Minutes(ms));
    var fields := Split(FormatLength(ms), ':');
    if Hours(ms) > 0 {
      assert fields[..1] == [NatToString(Hours(ms))] && fields[..2] == fields[..1] + [Pad2(Minutes(ms))];
      assert fields[..1][..0] == [] && fields[..2][..1] == fields[..1];
      calc {
        ClockValue(fields);
        ClockValue(fields[..2]) * 60 + Seconds(ms);
        (ClockValue(fields[..1]) * 60 + Minutes(ms)) * 60 + Seconds(ms);
        (Hours(ms) * 60 + Minutes(ms)) * 60 + Seconds(ms);
      }
    } else {
      assert fields[..1] == [NatToString(Minutes(ms))] && fields[..1][..0] == [];
      calc {
        ClockValue(fields);
        ClockValue(fields[..1]) * 60 + Seconds(ms);
        Minutes(ms) * 60 + Seconds(ms);
      }
    }
  }

  /** A song one day and one minute long shows as one minute. */
  lemma LengthDropsDays()
    ensures FormatLength(86_460_000) == "1:00"
  {
    assert Hours(86_460_000) == 0;
    assert Minutes(86_460_000) == 1;
    assert Seconds(86_460_000) == 0;
    assert NatToString(1) == "1";
    assert Pad2(0) == "00";
  }

  /** The metadata the sidebar reads from a song entry. */
  datatype SongMetadata = SongMetadata(
    album: string, source: string, sourceName: string, charter: string, genre: string, year: string,
    songLength: nat, parts: AvailableParts)

  /** What SearchFilter does: nothing, set the search input, or throw. */
  datatype FilterEffect = NoEffect | SetSearchInput(text: string) | Throws

  /** The filter keys and the metadata field each one reads. */
  function FilterField(song: SongMetadata, key: string): Option<string> {
    match key
    case "source" => Some(song.source)
    case "album" => Some(song.album)
    case "year" => Some(song.year)
    case "charter" => Some(song.charter)
    case "genre" => Some(song.genre)
    case _ => None
  }

  const FilterKeys: set<string> := {"source", "album", "year", "charter", "genre"}

  /** SearchFilter on the selected view: `type:value` for a known key of a song, a throw for another key. */
  function SearchFilter(selected: Option<SongMetadata>, key: string): (e: FilterEffect)
    ensures e.NoEffect? <==> selected.None?
    ensures e.SetSearchInput? <==> selected.Some? && key in FilterKeys
    ensures e.Throws? <==> selected.Some? && key !in FilterKeys
  {
    match selected
    case None => NoEffect
    case Some(song) =>
      match FilterField(song, key)
      case Some(value) => SetSearchInput(key + ":" + value)
      case None => Throws
  }

  /** The search text splits at its first colon back into the key and the field's value. */
  lemma SearchTextRoundTrip(song: SongMetadata, key: string)
    requires key in FilterKeys
    ensures SearchFilter(Some(song), key).SetSearchInput?
    ensures ':' in SearchFilter(Some(song), key).text
    ensures SplitFirst(SearchFilter(Some(song), key).text, ':') == (key, FilterField(song, key).value)
  {
    var value := FilterField(song, key).value;
    assert key + ":" + value == key + [':'] + value;
    SplitFirstAfter(key, ':', value);
  }
}

=== FILE: text_format.dfy ===
/**
 * Decimal and clock-style text: how a natural number is written, how
 * `mm`/`ss` fields are zero padded, and the readers that take such text
 * back apart (used to state what the sidebar's texts mean).
 */
module TextFormat {

  predicate IsDigit(c: char) {
    '0' <= c <= '9'
  }

  function DigitChar(d: nat): (c: char)
    requires d < 10
    ensures IsDigit(c) && c as int - '0' as int == d
  {
    ('0' as int + d) as char
  }

  /** The value of a decimal digit; any other character reads as 0. */
  function DigitValue(c: char): nat {
    if IsDigit(c) then c as int - '0' as int else 0
  }

  /** The shortest decimal numeral for `n`, as `{n}` and the `h`/`m` custom formats print it. */
  function NatToString(n: nat): (s: string)
    ensures |s| >= 1
    ensures forall i :: 0 <= i < |s| ==> IsDigit(s[i])
    ensures n < 10 <==> |s| == 1
    ensures n >= 10 ==> s[0] != '0'
    decreases n
  {
    if n < 10 then [DigitChar(n)] else NatToString(n / 10) + [DigitChar(n % 10)]
  }

  /** Reads a string of decimal digits, most significant first. */
  function ParseDigits(s: string): nat
    decreases |s|
  {
    if s == [] then 0 else ParseDigits(s[..|s| - 1]) * 10 + DigitValue(s[|s| - 1])
  }

  lemma {:induction false} ParseNatToString(n: nat)
    ensures ParseDigits(NatToString(n)) == n
  {
    var s := NatToString(n);
    if n >= 10 {
      ParseNatToString(n / 10);
      assert s[..|s| - 1] == NatToString(n / 10);
    } else {
      assert s[..|s| - 1] == [];
    }
  }

  /** A two-digit field with a leading zero, as the `mm` and `ss` custom formats print it. */
  function Pad2(n: nat): (s: string)
    requires n < 100
    ensures |s| == 2 && ParseDigits(s) == n
    ensures forall i :: 0 <= i < |s| ==> IsDigit(s[i])
  {
    ParseNatToString(n);
    if n < 10 then
      var s := "0" + NatToString(n);
      assert s[..1] == "0";
      s
    else
      NatToString(n)
  }

  /** Splits `s` at every occurrence of `sep`; there is always at least one field. */
  function Split(s: string, sep: char): (fields: seq<string>)
    ensures |fields| >= 1
    decreases |s|
  {
    if s == [] then [""]
    else
      var rest := Split(s[1..], sep);
      if s[0] == sep then [""] + rest else [[s[0]] + rest[0]] + rest[1..]
  }

  lemma {:induction false} SplitWithout(a: string, sep: char)
    requires sep !in a
    ensures Split(a, sep) == [a]
    decreases |a|
  {
    if a != [] {
      SplitWithout(a[1..], sep);
      assert [a[0]] + a[1..] == a;
    }
  }

  lemma {:induction false} SplitAfter(a: string, sep: char, b: string)
    requires sep !in a
    ensures Split(a + [sep] + b, sep) == [a] + Split(b, sep)
    decreases |a|
  {
    var s := a + [sep] + b;
    if a == [] {
      assert s[1..] == b;
    } else {
      assert s[1..] == a[1..] + [sep] + b;
      SplitAfter(a[1..], sep, b);
      assert [a[0]] + a[1..] == a;
    }
  }

  /** The text before and after the first occurrence of `sep` (all of `s` and "" when there is none). */
  function SplitFirst(s: string, sep: char): (r: (string, string))
    decreases |s|
  {
    if s == [] then ("", "")
    else if s[0] == sep then ("", s[1..])
    else
      var (a, b) := SplitFirst(s[1..], sep);
      ([s[0]] + a, b)
  }

  lemma {:induction false} SplitFirstAfter(a: string, sep: char, b: string)
    requires sep !in a
    ensures SplitFirst(a + [sep] + b, sep) == (a, b)
    decreases |a|
  {
    var s := a + [sep] + b;
    if a == [] {
      assert s[1..] == b;
    } else {
      assert s[1..] == a[1..] + [sep] + b;
      SplitFirstAfter(a[1..], sep, b);
      assert [a[0]] + a[1..] == a;
    }
  }

  /** Reads colon-separated fields as a base-60 clock value (`h:mm:ss` or `m:ss` to seconds). */
  function ClockValue(fields: seq<string>): nat
    decreases |fields|
  {
    if fields == [] then 0
    else ClockValue(fields[..|fields| - 1]) * 60 + ParseDigits(fields[|fields| - 1])
  }

  function ReadClock(text: string): nat {
    ClockValue(Split(text, ':'))
  }

  lemma DivModUnique(x: int, d: int, q: int, r: int)
    requires d > 0 && 0 <= r < d && x == q * d + r
    ensures x / d == q && x % d == r
  {
    var q', r' := x / d, x % d;
    assert (q - q') * d == r' - r;
    if q > q' {
      MulAtLeast(q - q', d);
    } else if q < q' {
      MulAtLeast(q' - q, d);
    }
  }

  lemma MulAtLeast(a: int, d: int)
    requires a >= 1 && d > 0
    ensures a * d >= d
  {
    assert a * d == (a - 1) * d + d;
  }
}

=== FILE: wrappers.dfy ===
/** The optional value used for C#'s nullable references and `?.` chains. */
module Wrappers {

  datatype Option<+T> = None | Some(value: T)
}
